=== FILE: README.md ===
# aissistent core in Dafny

This project models the core of a small command-line AI assistant, FelipeMayerDev/aissistent. The model covers four parts:

- **ToolManager** (`app/tool_manager.py`): the tool registry. It scans a tools directory and keeps an insertion-ordered dict from member name to LangChain `Tool`. It registers ready `Tool` objects and functions marked by the `tool` decorator, which it wraps. It can be reloaded.
- **ChatManager** (`app/chat.py`): the chat session. When an agent executor exists and tools are enabled, a message goes to the agent. When `agent_executor` is None, or tools are disabled, it goes to the chat model directly, with the conversation memory. When `__init__` built no agent, `agent_executor` is never assigned at all, and every message gets an error reply instead (see Findings). Every exception becomes an `"Error processing message: ..."` reply.
- **Cli** (`main.py`): the command loop. It recognises the exit words, `/tools` and `/clear` in any case, and forwards everything else to the chat session. `show_tools` and the start-up banner listing the loaded tools are modelled too.
- **SteamPrices** (`tools/steam_prices.py`): the `get_steam_prices` tool. It makes one line per game title and stops early when a lookup finds nothing or fails. Prices are formatted from integer cents exactly.

Two supporting modules hold shared definitions:

- `Wrappers` holds `Option`.
- `Strings` holds the Python `str` operations the code uses: `strip`, `lower`, `startswith` and `join`. It also holds two helpers the code does not call. A one-character `split` is used only to state that the Steam answer reads back line by line. Decimal digit rendering stands in for the whole-units part of `Decimal`'s `:.2f` format.

Everything is modelled with immutable datatypes and pure functions. `GetSteamPrices` is the one exception: it is a method with a loop, like the source.

The chat model, the LangChain agent and the storefront search are parameters (oracles):

- The model (`Llm`) either replies with text or raises.
- The agent (`Agent`) either raises or returns a result with an optional `"output"` and the memory it leaves behind.
- The search (`Fetch`) yields an error, no items, or the first item's name and price field.

Python's dynamic import is replaced by abstract values:

- A tools directory is either missing or a list of source files.
- Importing a file either raises, finds no loader, or yields its members in the order `inspect.getmembers` returns them (sorted by name).

### Where the code does not do what it intends

The code intends a session without tools to chat with the model directly. The `else` branch of `chat` is commented "Use simple chat without tools" (`app/chat.py:131-133`). `_setup_agent` also guards the empty-tools case (`app/chat.py:65-68`). In two situations the code does not do this, and this model follows the code:

- **At start-up.** When `__init__` builds no agent, its `else` branch assigns `self.agent`, not `self.agent_executor` (`app/chat.py:43`). `chat` then reads the missing attribute, which raises. So a session started without tools answers every message with an AttributeError text. This is recorded under Findings. The rest of the model, including `Cli.Launch`, uses the corrected constructor.
- **After a reload or model change.** When the registry becomes empty, `reload_tools` and `set_model` do not rebuild or drop the agent (`app/chat.py:151`, `162`). An executor built earlier stays in place. Chat then keeps going through the agent, with the old tools and, after `set_model`, the old model name. `ChatManager.EmptyReloadKeepsStaleExecutor` and `ChatManager.SetModelWithoutToolsKeepsExecutor` state this.

## Model

| member | source | states |
|---|---|---|
| ToolManager.IndexOf | app/tool_manager.py:88-90 | finds the first entry stored under a key; finds nothing exactly when the key is not registered |
| ToolManager.GetTool | app/tool_manager.py:88-90 | `get(name)` is None exactly when the name is not a key; otherwise it is a tool stored under that name |
| ToolManager.RegisterTool | app/tool_manager.py:79-82 | dict assignment: a new key goes last, an existing key keeps its place; the name then maps to the new tool; every other name maps as before; keys stay unique |
| ToolManager.AppendNewKey | app/tool_manager.py:81 | storing under a new key appends that key and changes no other lookup |
| ToolManager.OverwriteKey | app/tool_manager.py:81 | storing under an existing key keeps the key order and changes no other lookup |
| ToolManager.IndexOfAppend | app/tool_manager.py:81 | after an append, existing keys are found where they were and only the new key is found at the end |
| ToolManager.IndexOfUpdate | app/tool_manager.py:81 | replacing an entry's value does not move any key |
| ToolManager.WrapFunction | app/tool_manager.py:68-77 | the wrapped tool has the member's name and function; its description is the stripped docstring, or, when the docstring is missing or empty, `"Tool:"` followed by `" " + name` with its trailing whitespace removed (exactly `"Tool: " + name` for a non-empty name without surrounding whitespace); it is always free of surrounding whitespace |
| ToolManager.DefaultDescriptionShape | app/tool_manager.py:71-75 | for every name, the stripped default description is `"Tool:"` plus the space-prefixed name with trailing whitespace dropped, so `""` gives `"Tool:"` and `"x "` gives `"Tool: x"` |
| ToolManager.DefaultDescriptionStripped | app/tool_manager.py:71-75 | for a non-empty name with no surrounding whitespace, stripping leaves the default description `"Tool: " + name` unchanged |
| ToolManager.MarkAsTool | app/tool_manager.py:102-105 | the decorator returns the same function with the tool marker set; nothing else about it changes |
| ToolManager.MarkedFunctionIsToolFunction | app/tool_manager.py:59-66 | a decorated object counts as a tool function exactly when it is callable and has a `__name__` that does not start with `_` |
| ToolManager.ScanMembers | app/tool_manager.py:46-53 | scanning a module's members keeps the registry's keys unique |
| ToolManager.LoadFiles | app/tool_manager.py:27-34 | loading a sequence of files keeps the registry's keys unique |
| ToolManager.LoadTools | app/tool_manager.py:18-22 | a missing tools directory leaves the registry exactly as it was; keys stay unique |
| ToolManager.NewRegistry | app/tool_manager.py:13-16 | a fresh manager's registry has unique keys |
| ToolManager.ReloadTools | app/tool_manager.py:96-99 | a reload yields a registry with unique keys |
| ToolManager.ScanMembersLookup | app/tool_manager.py:46-53 | scanning over an existing registry overrides it name by name with what the scan alone registers, and keeps every other name |
| ToolManager.LoadStepLookup | app/tool_manager.py:27-34 | one file's load overrides the registry with exactly what that file alone produces |
| ToolManager.LoadFilesLookup | app/tool_manager.py:27-34 | after loading, a name maps to the tool from the last file that defines it, or else to its earlier value: the last loaded definition wins |
| ToolManager.LoadFilesAppend | app/tool_manager.py:27-34 | loading files `a + b` is loading `a`, then `b` |
| ToolManager.ReservedFileIgnored | app/tool_manager.py:28-29 | a file whose name starts with `__` changes nothing, wherever it is in the directory |
| ToolManager.ImportFailureIsolated | app/tool_manager.py:31-34 | a file whose import raises is as if it were absent; the files after it still load |
| ToolManager.RaisingMemberKeepsEarlier | app/tool_manager.py:46-53 | a member that raises ends its file's scan, and the tools that file registered before it stay registered |
| ToolManager.ToolInstanceKeyedByMemberName | app/tool_manager.py:47-48 | a ready Tool is registered unchanged under the member's name, whatever its own name |
| ToolManager.PlainMemberRegisteredIffToolFunction | app/tool_manager.py:49-53 | a plain member is registered, as its wrapped form, exactly when it is a tool function; otherwise its name keeps its earlier value |
| ToolManager.ReloadReflectsDirectory | app/tool_manager.py:96-99 | after a reload, a name is listed exactly when the directory now defines it, and it maps to the last such definition; older names are gone |
| ToolManager.ReloadIsFreshLoad | app/tool_manager.py:96-99 | a reload's result does not depend on the previous registry and equals a fresh manager's registry |
| ToolManager.ListAndGetToolsAligned | app/tool_manager.py:84-94 | `list_tools` (`Keys`) and `get_tools` (`Values`) have the same length, and the i-th name looks up the i-th tool |
| ChatManager.SetupAgent | app/chat.py:61-68 | with no tools, the executor is left as it was; otherwise an executor is built over the current tools and model; nothing else changes |
| ChatManager.NewSession | app/chat.py:39-43 | as written: an executor exists exactly when tools are enabled and some were loaded, and then it is built over the loaded tools and the given model; otherwise `agent_executor` is never assigned; memory starts empty |
| ChatManager.NewSessionFixed | app/chat.py:40-43 | corrected: same condition for the executor, built over the loaded tools and the given model, and otherwise `agent_executor` is None; the session invariant holds |
| ChatManager.Chat | app/chat.py:124-142 | never raises; model, tool flag, registry and executor are unchanged; a missing executor attribute gives the AttributeError reply with nothing changed; memory changes only on the agent path, or by the user turn then the AI turn |
| ChatManager.DirectChat | app/chat.py:132-140 | direct chat either leaves the session unchanged (failure) or adds exactly the user turn and the reply turn |
| ChatManager.ReloadSessionTools | app/chat.py:148-152 | the registry becomes a reload of the directory; the executor is rebuilt for the current model only when tools are enabled and some were loaded, and is kept as it was otherwise; the session invariant is preserved |
| ChatManager.ClearedSessionStartsOver | app/chat.py:154-156 | after `clear_history`, direct chat sends the model only the new message, and memory afterwards holds that one exchange or nothing |
| ChatManager.SetModel | app/chat.py:158-163 | the chat model changes at once; the executor is rebuilt for the new model only when tools are enabled and the registry is non-empty, and is kept as it was otherwise |
| ChatManager.ToolLessSessionAlwaysErrs | app/chat.py:40-43 | as written, a session started without tools replies to every message with the AttributeError text and its memory stays empty |
| ChatManager.FixedToolLessSessionChatsDirectly | app/chat.py:131-140 | corrected, a session started without tools sends just the user's message to the model, returns its reply and records both turns |
| ChatManager.DirectPathReply | app/chat.py:133-140 | on the direct path a failed model call reports the error and leaves memory unchanged; a reply is returned and memory gains the user turn then the AI turn |
| ChatManager.AgentPathReply | app/chat.py:127-130 | on the agent path the reply is the agent's `"output"`, the fallback text when there is none, or the error text when the agent raises |
| ChatManager.EmptyReloadKeepsStaleExecutor | app/chat.py:148-152 | a reload that finds no tools keeps the old executor, and chat still answers through it |
| ChatManager.SetModelWithoutToolsKeepsExecutor | app/chat.py:158-163 | with an empty registry, changing the model leaves the executor on the old one |
| Cli.Classify | main.py:40-56 | a line is an exit command exactly when its lower case is an exit word, `/tools` or `/clear` exactly when its lower case is that word; anything else is forwarded as typed |
| Cli.ShowTools | main.py:58-63 | prints "No tools available" exactly when the tool list is empty, and otherwise the tool names |
| Cli.Respond | main.py:45-56 | `/tools` prints the tool list and keeps the session; `/clear` prints the confirmation and empties memory; any other non-exit line prints the reply of `chat` on that very line and takes its session |
| Cli.Run | main.py:36-56 | one output per line consumed; when an exit word stops the loop it is the last line consumed and prints Goodbye; without one every line is consumed |
| Cli.RunStopsAtFirstQuit | main.py:36-43 | the loop stops at the first exit word: no earlier consumed line is one, and a run that does not stop has none |
| Cli.Launch | main.py:23-34 | the session is built with `use_tools = not no_tools`, using the corrected constructor; the loaded tools are announced exactly when tools are enabled and some were loaded |
| Cli.CommandsIgnoreCase | main.py:41-49 | a command and its lower case are the same command, and a line is forwarded exactly when its lower case is |
| Cli.ReloadForwarded | main.py:54-56 | `/reload` is not a command and goes to chat unchanged |
| Cli.ModelForwarded | main.py:54-56 | `/model` is not a command and goes to chat unchanged |
| Cli.HelpForwarded | main.py:54-56 | `/help` is not a command and goes to chat unchanged |
| Cli.PaddedExitForwarded | main.py:41-56 | an exit word with a leading space is forwarded to chat unchanged |
| Cli.PaddedToolsForwarded | main.py:45-56 | `/Tools ` with a trailing space is forwarded to chat unchanged, case intact |
| Cli.ExitWordsAnyCase | main.py:41-43 | `EXIT`, `Quit` and `Q` end the session |
| Cli.NothingAfterQuit | main.py:36-43 | whatever follows an exit word has no effect on the run |
| Cli.CommandsNeverChat | main.py:45-52 | a run of `/tools`, `/clear` and exit lines is the same whatever the model and agent would answer, and leaves memory as it was or empty |
| Cli.ForwardedLineReply | main.py:54-56 | a forwarded line prints exactly its chat reply |
| Cli.AsWrittenNoToolsEveryReplyErrs | main.py:36-56 | as written, in a session without an executor attribute every printed AI reply is the AttributeError text and memory never grows |
| Cli.AsWrittenNoToolsLaunch | main.py:24-28 | as written, starting with `--no-tools` makes every AI reply of the run the AttributeError text |
| SteamPrices.FormatCents | tools/steam_prices.py:38-39 | the amount has exactly two decimals after a point, a minus sign exactly when the cents are negative, and a whole part without a leading zero (`0.05`, never `00.05`) |
| SteamPrices.CentsRoundTrip | tools/steam_prices.py:38-39 | the formatted amount reads back as the same number of cents: no rounding, no lost digits |
| SteamPrices.PricedLineReadsBack | tools/steam_prices.py:31-39 | a priced item's line is its name, or "Unknown" when it has none, then `: R$`, then an amount that reads back as exactly the item's cents |
| SteamPrices.FirstStop | tools/steam_prices.py:16-29 | the first step that ends the call: all earlier steps give a line, this one does not |
| SteamPrices.GetSteamPrices | tools/steam_prices.py:14-44 | against the reference definitions `Steps` (one step per stripped title, in order) and `PriceLines` (each step's line): no titles give `""`; if every title gives a line, the reply is the lines joined by newlines; otherwise it is "No games found." or the error text for the first title that stops, with earlier lines discarded |
| SteamPrices.AnswerSplitsIntoTitleLines | tools/steam_prices.py:41 | when every title gives a line and no line holds a newline, the joined answer splits back into exactly the per-title lines, in order |
| Strings.Strip | tools/steam_prices.py:17 | stripping never lengthens a string |
| Strings.StripSpec | tools/steam_prices.py:17 | `strip` keeps a contiguous slice whose two ends are not whitespace, with only whitespace removed on either side |
| Strings.TrimEndAfterPrefix | app/tool_manager.py:75 | `rstrip` of a string whose prefix ends in a non-whitespace character keeps the prefix whole and right-strips only the rest |
| Strings.StripIdempotent | app/tool_manager.py:75 | stripping twice is stripping once |
| Strings.StripEmptyIffAllSpace | tools/steam_prices.py:17 | a string strips to empty exactly when it is all whitespace |
| Strings.Lower | main.py:41 | same length, each character lower-cased |
| Strings.LowerIdempotent | main.py:41-49 | lower-casing twice is lower-casing once |
| Strings.SplitJoin | tools/steam_prices.py:41 | splitting a newline-joined list whose parts hold no newline gives the list back |
| Strings.NatToString | tools/steam_prices.py:39 | the decimal rendering is a non-empty string of digits without a leading zero |
| Strings.NatStringRoundTrip | tools/steam_prices.py:39 | the decimal rendering of a number parses back to it |

## Left out

- Printing, `rich` rendering and `click` option parsing are not modelled. Outputs are modelled as the sequence of things the loop would print. `_register_tool`'s "Loaded tool" message and the load warnings are dropped.
- `importlib`, `inspect.getmembers` and the glob order of files are abstracted. Files and members are given as sequences in the order the program would see them.
- Only the observable failure points are modelled: an import that raises, a missing loader, and a member whose inspection raises. The exception text is not.
- The LangChain ReAct loop, `initialize_agent` options (`max_iterations`, `handle_parsing_errors`) and the agent's internal memory writes are left to the `Agent` oracle.
- The Ollama chat model is the `Llm` oracle. The base URL and temperature are not modelled.
- The prompt template and tool-description strings in `_setup_agent` are left out. They are built but never handed to the agent.
- The `self.agent` attribute is not modelled, because nothing reads it. `_setup_model` is left out as model configuration.
- End of input and Ctrl-C in the command loop are not modelled. The loop reads from a finite list of lines and stops when the list runs out.
- Strings.Lower: lower-cases ASCII letters only. Python's `lower` also maps other letters. Among the non-ASCII letters, only two lower to ASCII letters. U+0130 lowers to `i` followed by a combining dot. U+212A lowers to `k`, which no command word contains. So matching against `exit`, `quit`, `q`, `/tools` and `/clear` gives the same result.
- Strings.Strip: its own contract states only the length bound. The slice-and-whitespace characterisation is proved separately in `Strings.StripSpec`, so that callers are not burdened with it.
- ToolManager.ScanMembers: its contract states only that keys stay unique. What it registers is stated by `ToolManager.ScanMembersLookup` and `ToolManager.RaisingMemberKeepsEarlier`.
- SteamPrices.FormatCents: `Decimal` division is exact only up to 28 significant digits. Amounts beyond that are formatted here without rounding.
- A price field that is truthy but not a mapping, a non-integer `'final'`, and a non-string game name are not modelled. Only a missing `'final'` is modelled, as the `KeyError` it raises.
- Building the storefront URL, HTTP status handling and JSON decoding are folded into the `Fetch` oracle. Titles are not URL-encoded in the source, and this is not modelled.
- Cli.Launch: runs on the corrected constructor `ChatManager.NewSessionFixed`. The program as written, started with `--no-tools`, prints `Error processing message: 'ChatManager' object has no attribute 'agent_executor'` for every chat line. `Launch` prints the model's reply instead. The as-written run is stated by `Cli.AsWrittenNoToolsLaunch`.
- The `Fetch` and `Llm` oracles are pure functions. Two titles that strip to the same string therefore always get the same lookup, although the source sends a fresh request for each title. Likewise, the same model and messages always get the same reply. No property here depends on this.
- The other tools (calculator, weather, file manager, web search, time) and `scripts/get_sys_info.py` are not part of this model.

## Findings

| source | as written | input that shows it | evidently intended | confidence | as-written member | corrected member |
|---|---|---|---|---|---|---|
| app/chat.py:43 | when no agent is built, `__init__` assigns `self.agent = None` and never assigns `agent_executor`; `chat` then reads `self.agent_executor`, raises AttributeError and returns it as an error message | start with `--no-tools` (or with an empty tools directory) and send `hello`: the reply is `Error processing message: 'ChatManager' object has no attribute 'agent_executor'` | `self.agent_executor = None`, so `chat` falls through to direct chat with the model | not executed | ChatManager.NewSession, ChatManager.ToolLessSessionAlwaysErrs | ChatManager.NewSessionFixed, ChatManager.FixedToolLessSessionChatsDirectly |

=== FILE: chat_manager.dfy ===
/** The chat session of `app/chat.py`.

    The chat model and the LangChain agent are oracles passed in as
    functions: the model either replies with text or raises; the agent either
    raises or returns a result dict (with or without an `"output"` key)
    together with the conversation memory it leaves behind. */
module ChatManager {
  import opened Wrappers
  import opened ToolManager

  /** One message of the conversation buffer. */
  datatype Turn = Human(text: string) | Ai(text: string)

  /** What `initialize_agent` builds: the tool list it was given and the
      model name its LLM was configured with at that moment. */
  datatype AgentExecutor = AgentExecutor(tools: seq<Tool>, model: string)

  /** The `agent_executor` attribute: never assigned (reading it raises
      AttributeError), assigned None, or holding an executor. */
  datatype ExecutorSlot = Unassigned | NoneValue | Built(executor: AgentExecutor)

  datatype Session = Session(
    model: string,
    useTools: bool,
    registry: Registry,
    memory: seq<Turn>,
    executor: ExecutorSlot)

  /** `self.llm.invoke(messages)` */
  datatype LlmOutcome = LlmRaised(error: string) | LlmReply(content: string)

  /** `self.agent_executor.invoke({"input": message})` */
  datatype AgentOutcome = AgentRaised(error: string) | AgentResult(output: Option<string>, memory: seq<Turn>)

  type Llm = (string, seq<Turn>) -> LlmOutcome
  type Agent = (AgentExecutor, string, seq<Turn>) -> AgentOutcome

  /** The text `chat` returns, and the session after the call. */
  datatype Reply = Reply(text: string, session: Session)

  const ErrorPrefix: string := "Error processing message: "
  const MissingExecutorError: string := "'ChatManager' object has no attribute 'agent_executor'"
  const NoOutputReply: string := "I couldn't process that request."

  /** An executor exists only in a tool-enabled session and was built from
      a non-empty tool list; the registry has distinct names. */
  predicate Consistent(s: Session) {
    && Distinct(s.registry)
    && (s.executor.Built? ==> s.useTools && |s.executor.executor.tools| > 0)
  }

  /** `_setup_agent`: with no tools it only sets `self.agent`, leaving the
      executor slot as it was; otherwise it builds an executor over the
      current tools and the current model. */
  function SetupAgent(s: Session): (s': Session)
    ensures s'.model == s.model && s'.useTools == s.useTools && s'.registry == s.registry && s'.memory == s.memory
    ensures |GetTools(s.registry)| == 0 ==> s'.executor == s.executor
    ensures |GetTools(s.registry)| > 0 ==> s'.executor == Built(AgentExecutor(GetTools(s.registry), s.model))
  {
    var tools := GetTools(s.registry);
    if |tools| == 0 then s
    else s.(executor := Built(AgentExecutor(tools, s.model)))
  }

  /** `ChatManager.__init__` as written: when no agent is set up it assigns
      `self.agent`, so `agent_executor` is left unassigned. */
  function NewSession(model: string, useTools: bool, dir: ToolsDir): (s: Session)
    ensures Consistent(s)
    ensures s.model == model && s.useTools == useTools && s.memory == []
    ensures s.registry == NewRegistry(dir)
    ensures s.executor.Built? <==> useTools && |ListTools(s.registry)| > 0
    ensures s.executor.Built? ==> s.executor.executor == AgentExecutor(GetTools(s.registry), model)
    ensures !s.executor.Built? ==> s.executor.Unassigned?
  {
    var s0 := Session(model, useTools, NewRegistry(dir), [], Unassigned);
    if useTools && |GetTools(s0.registry)| > 0 then SetupAgent(s0) else s0
  }

  /** `ChatManager.__init__` with the evident intent of its else branch:
      `self.agent_executor = None`. */
  function NewSessionFixed(model: string, useTools: bool, dir: ToolsDir): (s: Session)
    ensures Consistent(s)
    ensures s.model == model && s.useTools == useTools && s.memory == []
    ensures s.registry == NewRegistry(dir)
    ensures s.executor.Built? <==> useTools && |ListTools(s.registry)| > 0
    ensures s.executor.Built? ==> s.executor.executor == AgentExecutor(GetTools(s.registry), model)
    ensures !s.executor.Built? ==> s.executor.NoneValue?
  {
    var s0 := Session(model, useTools, NewRegistry(dir), [], NoneValue);
    if useTools && |GetTools(s0.registry)| > 0 then SetupAgent(s0) else s0
  }

  /** `chat`: the agent path when an executor exists and tools are enabled,
      direct chat otherwise; every exception, including the failed attribute
      lookup, becomes an `"Error processing message: ..."` reply. */
  function Chat(s: Session, message: string, llm: Llm, agent: Agent): (r: Reply)
    ensures r.session.model == s.model && r.session.useTools == s.useTools
    ensures r.session.registry == s.registry && r.session.executor == s.executor
    ensures Consistent(s) ==> Consistent(r.session)
    ensures s.executor.Unassigned? ==> r == Reply(ErrorPrefix + MissingExecutorError, s)
    ensures r.session.memory != s.memory ==> s.executor.Built? || r.session.memory == s.memory + [Human(message), Ai(r.text)]
  {
    match s.executor
    case Unassigned => Reply(ErrorPrefix + MissingExecutorError, s)
    case NoneValue => DirectChat(s, message, llm)
    case Built(executor) =>
      if s.useTools then
        match agent(executor, message, s.memory)
        case AgentRaised(e) => Reply(ErrorPrefix + e, s)
        case AgentResult(output, memory) => Reply(output.GetOr(NoOutputReply), s.(memory := memory))
      else DirectChat(s, message, llm)
  }

  /** The `else` branch of `chat`: the model sees the memory plus the new
      message; only a successful reply is recorded, user turn first. */
  function DirectChat(s: Session, message: string, llm: Llm): (r: Reply)
    ensures r.session == s || r.session == s.(memory := s.memory + [Human(message), Ai(r.text)])
  {
    match llm(s.model, s.memory + [Human(message)])
    case LlmRaised(e) => Reply(ErrorPrefix + e, s)
    case LlmReply(content) => Reply(content, s.(memory := s.memory + [Human(message), Ai(content)]))
  }

  /** `get_tool_list` */
  function GetToolList(s: Session): seq<string> {
    ListTools(s.registry)
  }

  /** `reload_tools`: the registry is rebuilt from the directory; the agent
      is rebuilt only if tools are enabled and some tool was loaded. */
  function ReloadSessionTools(s: Session, dir: ToolsDir): (s': Session)
    ensures s'.registry == ReloadTools(s.registry, dir)
    ensures s'.model == s.model && s'.useTools == s.useTools && s'.memory == s.memory
    ensures Consistent(s) ==> Consistent(s')
    ensures s.useTools && |ListTools(s'.registry)| > 0 ==> s'.executor == Built(AgentExecutor(GetTools(s'.registry), s.model))
    ensures !(s.useTools && |ListTools(s'.registry)| > 0) ==> s'.executor == s.executor
  {
    var s1 := s.(registry := ReloadTools(s.registry, dir));
    if s1.useTools && |GetTools(s1.registry)| > 0 then SetupAgent(s1) else s1
  }

  /** `clear_history` */
  function ClearHistory(s: Session): (s': Session)
    ensures s'.memory == []
    ensures s' == s.(memory := [])
  {
    s.(memory := [])
  }

  /** `set_model`: the chat model changes at once; the agent is rebuilt for
      the new model only if tools are enabled and the registry is non-empty. */
  function SetModel(s: Session, model: string): (s': Session)
    ensures s'.model == model && s'.useTools == s.useTools && s'.registry == s.registry && s'.memory == s.memory
    ensures Consistent(s) ==> Consistent(s')
    ensures s.useTools && |ListTools(s.registry)| > 0 ==> s'.executor == Built(AgentExecutor(GetTools(s.registry), model))
    ensures !(s.useTools && |ListTools(s.registry)| > 0) ==> s'.executor == s.executor
  {
    var s1 := s.(model := model);
    if s1.useTools && |GetTools(s1.registry)| > 0 then SetupAgent(s1) else s1
  }

  // ---------------------------------------------------------------------
  // Properties
  // ---------------------------------------------------------------------

  /** As written, a session created without tools (disabled, or none found)
      never reaches direct chat: every message gets the AttributeError reply,
      whatever the model would have said, and memory stays empty. */
  lemma ToolLessSessionAlwaysErrs(model: string, useTools: bool, dir: ToolsDir, message: string, llm: Llm, agent: Agent)
    requires !useTools || |ListTools(NewRegistry(dir))| == 0
    ensures Chat(NewSession(model, useTools, dir), message, llm, agent).text == ErrorPrefix + MissingExecutorError
    ensures Chat(NewSession(model, useTools, dir), message, llm, agent).session.memory == []
  {
  }

  /** With the fix, a session created without tools chats directly: the
      model sees exactly the user's message, its reply is returned, and the
      memory records the user turn then the AI turn. */
  lemma FixedToolLessSessionChatsDirectly(model: string, useTools: bool, dir: ToolsDir, message: string, llm: Llm, agent: Agent, content: string)
    requires !useTools || |ListTools(NewRegistry(dir))| == 0
    requires llm(model, [Human(message)]) == LlmReply(content)
    ensures Chat(NewSessionFixed(model, useTools, dir), message, llm, agent)
         == Reply(content, NewSessionFixed(model, useTools, dir).(memory := [Human(message), Ai(content)]))
  {
    var s := NewSessionFixed(model, useTools, dir);
    assert s.memory + [Human(message)] == [Human(message)];
    assert s.memory + [Human(message), Ai(content)] == [Human(message), Ai(content)];
  }

  /** On the direct path a failed model call reports the error and leaves
      memory untouched; a successful one returns the model's text and adds
      exactly the user turn, then the AI turn. */
  lemma DirectPathReply(s: Session, message: string, llm: Llm, agent: Agent)
    requires s.executor.NoneValue? || (s.executor.Built? && !s.useTools)
    ensures match llm(s.model, s.memory + [Human(message)])
      case LlmRaised(e) => Chat(s, message, llm, agent) == Reply(ErrorPrefix + e, s)
      case LlmReply(c) => Chat(s, message, llm, agent) == Reply(c, s.(memory := s.memory + [Human(message), Ai(c)]))
  {
  }

  /** After `clear_history` direct chat starts over: the model sees only the
      new message, and memory holds at most that one exchange. */
  lemma ClearedSessionStartsOver(s: Session, message: string, llm: Llm, agent: Agent)
    requires s.executor.NoneValue?
    ensures match llm(s.model, [Human(message)])
      case LlmRaised(e) => Chat(ClearHistory(s), message, llm, agent) == Reply(ErrorPrefix + e, s.(memory := []))
      case LlmReply(c) => Chat(ClearHistory(s), message, llm, agent) == Reply(c, s.(memory := [Human(message), Ai(c)]))
  {
    var empty: seq<Turn> := [];
    assert empty + [Human(message)] == [Human(message)];
    if llm(s.model, [Human(message)]).LlmReply? {
      var c := llm(s.model, [Human(message)]).content;
      assert empty + [Human(message), Ai(c)] == [Human(message), Ai(c)];
    }
  }

  /** On the agent path the reply is the agent's `"output"`, or the fallback
      text when the result has none. */
  lemma AgentPathReply(s: Session, message: string, llm: Llm, agent: Agent)
    requires Consistent(s) && s.executor.Built?
    ensures match agent(s.executor.executor, message, s.memory)
      case AgentRaised(e) => Chat(s, message, llm, agent).text == ErrorPrefix + e
      case AgentResult(None, _) => Chat(s, message, llm, agent).text == NoOutputReply
      case AgentResult(Some(out), _) => Chat(s, message, llm, agent).text == out
  {
  }

  /** A reload that finds no tools keeps the executor built for the old
      tools, so chat still goes through the agent although the registry is
      empty. */
  lemma EmptyReloadKeepsStaleExecutor(s: Session, dir: ToolsDir, message: string, llm: Llm, agent: Agent)
    requires Consistent(s) && s.executor.Built?
    requires |ListTools(ReloadTools(s.registry, dir))| == 0
    ensures ReloadSessionTools(s, dir).executor == s.executor
    ensures Chat(ReloadSessionTools(s, dir), message, llm, agent).text
         == match agent(s.executor.executor, message, s.memory)
            case AgentRaised(e) => ErrorPrefix + e
            case AgentResult(out, _) => out.GetOr(NoOutputReply)
  {
  }

  /** With an empty registry `set_model` switches direct chat to the new
      model but leaves any executor on the old one. */
  lemma SetModelWithoutToolsKeepsExecutor(s: Session, model: string)
    requires |ListTools(s.registry)| == 0
    ensures SetModel(s, model).executor == s.executor
    ensures SetModel(s, model).model == model
  {
  }
}

=== FILE: cli.dfy ===
/** The interactive loop of `main.py`: each input line is lower-cased and
    compared with the exit words, `/tools` and `/clear`; anything else goes,
    as typed, to the chat session. Printing is modelled as the sequence of
    things the loop would print, one per line read. */
module Cli {
  import opened Strings
  import opened ToolManager
  import opened ChatManager

  const ExitWords: seq<string> := ["exit", "quit", "q"]
  const ToolsCommand: string := "/tools"
  const ClearCommand: string := "/clear"

  datatype Command = Quit | ShowToolList | ClearChat | Forward(line: string)

  /** The `if`/`elif` chain of the loop. */
  function Classify(line: string): (c: Command)
    ensures c.Quit? <==> Lower(line) in ExitWords
    ensures c.ShowToolList? <==> Lower(line) == ToolsCommand
    ensures c.ClearChat? <==> Lower(line) == ClearCommand
    ensures c.Forward? ==> c.line == line
  {
    var lowered := Lower(line);
    if lowered in ExitWords then Quit
    else if lowered == ToolsCommand then ShowToolList
    else if lowered == ClearCommand then ClearChat
    else Forward(line)
  }

  /** What the program prints. */
  datatype Output =
    | Goodbye
    | AvailableTools(names: seq<string>)
    | NoToolsAvailable
    | HistoryCleared
    | AiSays(text: string)
    | LoadedTools(names: seq<string>)

  /** `show_tools`: the tool names, or "No tools available" for none. */
  function ShowTools(s: Session): (o: Output)
    ensures o.NoToolsAvailable? <==> |GetToolList(s)| == 0
    ensures o.AvailableTools? ==> o.names == GetToolList(s)
    ensures o.NoToolsAvailable? || o.AvailableTools?
  {
    var tools := GetToolList(s);
    if |tools| > 0 then AvailableTools(tools) else NoToolsAvailable
  }

  /** The state after reading some lines: what was printed, the session,
      how many lines were consumed and whether an exit word stopped it. */
  datatype Transcript = Transcript(outputs: seq<Output>, session: Session, consumed: nat, quit: bool)

  function Prepend(o: Output, t: Transcript): Transcript {
    Transcript([o] + t.outputs, t.session, t.consumed + 1, t.quit)
  }

  /** What the loop prints for a line that is not an exit word, and the
      session afterwards: only a forwarded line reaches `chat`. */
  function Respond(s: Session, line: string, llm: Llm, agent: Agent): (r: (Output, Session))
    ensures Classify(line).ShowToolList? ==> r == (ShowTools(s), s)
    ensures Classify(line).ClearChat? ==> r == (HistoryCleared, ClearHistory(s))
    ensures Classify(line).Forward? ==> r == (AiSays(Chat(s, line, llm, agent).text), Chat(s, line, llm, agent).session)
  {
    match Classify(line)
    case Quit => (Goodbye, s)
    case ShowToolList => (ShowTools(s), s)
    case ClearChat => (HistoryCleared, ClearHistory(s))
    case Forward(_) =>
      var reply := Chat(s, line, llm, agent);
      (AiSays(reply.text), reply.session)
  }

  /** The `while True` loop over the lines the user types. */
  function Run(s: Session, lines: seq<string>, llm: Llm, agent: Agent): (t: Transcript)
    ensures t.consumed <= |lines| && |t.outputs| == t.consumed
    ensures t.quit ==> t.consumed >= 1 && Classify(lines[t.consumed - 1]).Quit? && t.outputs[t.consumed - 1] == Goodbye
    ensures !t.quit ==> t.consumed == |lines|
    decreases |lines|
  {
    if |lines| == 0 then Transcript([], s, 0, false)
    else if Classify(lines[0]).Quit? then Transcript([Goodbye], s, 1, true)
    else
      var (o, s') := Respond(s, lines[0], llm, agent);
      Prepend(o, Run(s', lines[1..], llm, agent))
  }

  /** The loop stops at the first exit word: no line it consumed before the
      last one was an exit word. */
  lemma {:induction false} RunStopsAtFirstQuit(s: Session, lines: seq<string>, llm: Llm, agent: Agent)
    ensures var t := Run(s, lines, llm, agent);
      forall i :: 0 <= i < t.consumed - 1 ==> !Classify(lines[i]).Quit?
    ensures var t := Run(s, lines, llm, agent);
      !t.quit ==> forall i :: 0 <= i < |lines| ==> !Classify(lines[i]).Quit?
    decreases |lines|
  {
    if |lines| > 0 && !Classify(lines[0]).Quit? {
      var s' := Respond(s, lines[0], llm, agent).1;
      RunStopsAtFirstQuit(s', lines[1..], llm, agent);
      var t := Run(s, lines, llm, agent);
      var t' := Run(s', lines[1..], llm, agent);
      assert t.consumed == t'.consumed + 1 && t.quit == t'.quit;
      assert forall i :: 1 <= i < |lines| ==> lines[i] == lines[1..][i - 1];
    }
  }

  /** The banner lines and the loop, from the command-line options. */
  datatype Launched = Launched(banner: seq<Output>, transcript: Transcript)

  /** The `chat` command: the session is created with `use_tools = not
      no_tools`, the loaded tools are announced when tools are enabled and
      some were found, then the loop runs. */
  function Launch(model: string, noTools: bool, dir: ToolsDir, lines: seq<string>, llm: Llm, agent: Agent): (l: Launched)
    ensures l.transcript == Run(NewSessionFixed(model, !noTools, dir), lines, llm, agent)
    ensures |l.banner| == 1 <==> !noTools && |ListTools(NewRegistry(dir))| > 0
    ensures l.banner == [] || l.banner == [LoadedTools(ListTools(NewRegistry(dir)))]
  {
    var s := NewSessionFixed(model, !noTools, dir);
    var tools := GetToolList(s);
    var banner := if !noTools && |tools| > 0 then [LoadedTools(tools)] else [];
    Launched(banner, Run(s, lines, llm, agent))
  }

  // ---------------------------------------------------------------------
  // Properties
  // ---------------------------------------------------------------------

  /** Commands are matched case-insensitively: a line and its lower case are
      the same command unless the line is forwarded to chat. */
  lemma CommandsIgnoreCase(line: string)
    ensures !Classify(line).Forward? ==> Classify(Lower(line)) == Classify(line)
    ensures Classify(Lower(line)).Forward? <==> Classify(line).Forward?
  {
    LowerIdempotent(line);
  }

  /** The other commands the banner advertises are not recognised: they go
      to chat verbatim. */
  lemma ReloadForwarded()
    ensures Classify("/reload") == Forward("/reload")
  {
    assert Lower("/reload") == "/reload";
    assert "/reload" !in ExitWords;
  }

  lemma ModelForwarded()
    ensures Classify("/model") == Forward("/model")
  {
    assert Lower("/model") == "/model";
    assert "/model" !in ExitWords;
  }

  lemma HelpForwarded()
    ensures Classify("/help") == Forward("/help")
  {
    assert Lower("/help") == "/help";
    assert "/help" !in ExitWords;
  }

  /** A command with surrounding spaces is not recognised either, and goes
      to chat with its spaces and case intact. */
  lemma PaddedExitForwarded()
    ensures Classify(" exit") == Forward(" exit")
  {
    assert Lower(" exit") == " exit";
    assert " exit" !in ExitWords;
  }

  lemma PaddedToolsForwarded()
    ensures Classify("/Tools ") == Forward("/Tools ")
  {
    assert Lower("/Tools ") == "/tools ";
    assert "/tools " !in ExitWords;
  }

  /** Exit words in any case end the session. */
  lemma ExitWordsAnyCase()
    ensures Classify("EXIT") == Quit && Classify("Quit") == Quit && Classify("Q") == Quit
  {
    assert Lower("EXIT") == "exit";
    assert Lower("Quit") == "quit";
    assert Lower("Q") == "q";
  }

  /** Once an exit word is read nothing after it is processed. */
  lemma {:induction false} NothingAfterQuit(s: Session, before: seq<string>, q: string, after: seq<string>, llm: Llm, agent: Agent)
    requires Classify(q).Quit?
    ensures Run(s, before + [q] + after, llm, agent) == Run(s, before + [q], llm, agent)
    decreases |before|
  {
    var lines := before + [q] + after;
    if |before| == 0 {
      assert lines[0] == q;
      assert (before + [q])[0] == q;
    } else {
      assert lines[0] == before[0] && (before + [q])[0] == before[0];
      assert lines[1..] == before[1..] + [q] + after;
      assert (before + [q])[1..] == before[1..] + [q];
      match Classify(before[0])
      case Quit =>
      case ShowToolList =>
        NothingAfterQuit(s, before[1..], q, after, llm, agent);
      case ClearChat =>
        NothingAfterQuit(ClearHistory(s), before[1..], q, after, llm, agent);
      case Forward(line) =>
        NothingAfterQuit(Chat(s, line, llm, agent).session, before[1..], q, after, llm, agent);
    }
  }

  /** `/tools` and `/clear` never reach the model or the agent: a run with no
      forwarded line is the same whatever the oracles would answer, and it
      leaves the conversation memory as it was or empty. */
  lemma {:induction false} CommandsNeverChat(s: Session, lines: seq<string>, llm1: Llm, agent1: Agent, llm2: Llm, agent2: Agent)
    requires forall i :: 0 <= i < |lines| ==> !Classify(lines[i]).Forward?
    ensures Run(s, lines, llm1, agent1) == Run(s, lines, llm2, agent2)
    ensures Run(s, lines, llm1, agent1).session.memory in {s.memory, []}
    decreases |lines|
  {
    if |lines| > 0 {
      match Classify(lines[0])
      case Quit =>
      case ShowToolList =>
        CommandsNeverChat(s, lines[1..], llm1, agent1, llm2, agent2);
      case ClearChat =>
        CommandsNeverChat(ClearHistory(s), lines[1..], llm1, agent1, llm2, agent2);
    }
  }

  /** Every forwarded line gets exactly its chat reply printed. */
  lemma ForwardedLineReply(s: Session, line: string, rest: seq<string>, llm: Llm, agent: Agent)
    requires Classify(line).Forward?
    ensures Run(s, [line] + rest, llm, agent).outputs[0] == AiSays(Chat(s, line, llm, agent).text)
  {
    assert ([line] + rest)[0] == line;
  }

  /** As written, a session started with `--no-tools` answers every chat line
      with the AttributeError message, and its memory never grows. */
  lemma {:induction false} AsWrittenNoToolsEveryReplyErrs(s: Session, lines: seq<string>, llm: Llm, agent: Agent)
    requires s.executor.Unassigned?
    ensures forall i :: 0 <= i < |Run(s, lines, llm, agent).outputs| && Run(s, lines, llm, agent).outputs[i].AiSays?
              ==> Run(s, lines, llm, agent).outputs[i].text == ErrorPrefix + MissingExecutorError
    ensures Run(s, lines, llm, agent).session.memory in {s.memory, []}
    decreases |lines|
  {
    if |lines| > 0 {
      match Classify(lines[0])
      case Quit =>
      case ShowToolList =>
        AsWrittenNoToolsEveryReplyErrs(s, lines[1..], llm, agent);
      case ClearChat =>
        AsWrittenNoToolsEveryReplyErrs(ClearHistory(s), lines[1..], llm, agent);
      case Forward(line) =>
        AsWrittenNoToolsEveryReplyErrs(s, lines[1..], llm, agent);
    }
  }

  /** The as-written constructor with tools disabled yields such a session. */
  lemma AsWrittenNoToolsLaunch(model: string, dir: ToolsDir, lines: seq<string>, llm: Llm, agent: Agent)
    ensures var t := Run(NewSession(model, false, dir), lines, llm, agent);
      forall i :: 0 <= i < |t.outputs| && t.outputs[i].AiSays? ==> t.outputs[i].text == ErrorPrefix + MissingExecutorError
  {
    AsWrittenNoToolsEveryReplyErrs(NewSession(model, false, dir), lines, llm, agent);
  }
}

=== FILE: steam_prices.dfy ===
/** The `get_steam_prices` tool of `tools/steam_prices.py`.

    The storefront search (`requests.get`, `raise_for_status`, `json()`) is
    the `fetch` parameter: for a stripped title it yields an error message,
    a response without items, or the first item's name and price field. */
module SteamPrices {
  import opened Wrappers
  import opened Strings

  /** `item.get("price", 0)`: falsy (absent, 0, None, an empty dict), or a
      price object whose `'final'` amount in cents may be missing. */
  datatype PriceField = Falsy | PriceObject(final: Option<int>)

  /** One storefront search. */
  datatype Lookup = Failed(error: string) | NoItems | FirstItem(name: Option<string>, price: PriceField)

  type Fetch = string -> Lookup

  const NoGamesFound: string := "No games found."
  const ErrorPrefix: string := "Error fetching game prices: "
  const FreeToPlay: string := "Free to Play"
  const UnknownName: string := "Unknown"
  /** `str(KeyError('final'))` */
  const MissingFinalError: string := "'final'"

  /** `f"{Decimal(final) / 100:.2f}"`: the amount in currency units with
      exactly two decimals, computed without rounding. The whole part has
      no leading zero, so with `CentsRoundTrip` the text is the only one of
      its shape that reads back as `final`. */
  function FormatCents(final: int): (s: string)
    ensures |s| >= 4 && s[|s| - 3] == '.'
    ensures final >= 0 <==> s[0] != '-'
    ensures final < 0 ==> IsDigit(s[1]) && (s[1] == '0' ==> s[2] == '.')
    ensures final >= 0 ==> IsDigit(s[0]) && (s[0] == '0' ==> s[1] == '.')
  {
    if final < 0 then "-" + Unsigned(-final) else Unsigned(final)
  }

  /** `a` cents as whole units, a point and two digits. */
  function Unsigned(a: nat): (u: string)
    ensures |u| >= 4 && u[|u| - 3] == '.' && IsDigit(u[0])
    ensures u[0] == '0' ==> u[1] == '.'
  {
    NatToString(a / 100) + "." + [DigitChar(a % 100 / 10), DigitChar(a % 10)]
  }

  /** Reads back an amount written as `[-]digits.dd`. */
  function ParseCents(s: string): Option<int> {
    var neg := |s| > 0 && s[0] == '-';
    var body := if neg then s[1..] else s;
    if |body| < 4 || body[|body| - 3] != '.' then None
    else
      var whole := body[..|body| - 3];
      var fraction := body[|body| - 2..];
      if !AllDigits(whole) || !AllDigits(fraction) then None
      else
        var v := StringToNat(whole) * 100 + StringToNat(fraction);
        Some(if neg then -v else v)
  }

  /** The formatted amount is exact: it reads back as the same number of cents. */
  lemma CentsRoundTrip(final: int)
    ensures ParseCents(FormatCents(final)) == Some(final)
  {
    if final < 0 {
      ParseNegative(-final);
    } else {
      ParseNonNegative(final);
    }
  }

  lemma ParseNonNegative(a: nat)
    ensures ParseCents(Unsigned(a)) == Some(a)
  {
    var u := Unsigned(a);
    UnsignedParts(a);
    assert u[0] != '-';
  }

  lemma ParseNegative(a: nat)
    ensures ParseCents("-" + Unsigned(a)) == Some(-(a as int))
  {
    var u := Unsigned(a);
    var s := "-" + u;
    UnsignedParts(a);
    assert s[0] == '-' && s[1..] == u;
  }

  /** The digits before and after the point read back as `a / 100` and `a % 100`. */
  lemma UnsignedParts(a: nat)
    ensures var u := Unsigned(a);
      && AllDigits(u[..|u| - 3]) && AllDigits(u[|u| - 2..])
      && StringToNat(u[..|u| - 3]) * 100 + StringToNat(u[|u| - 2..]) == a
  {
    var u := Unsigned(a);
    var digits := NatToString(a / 100);
    var fraction := [DigitChar(a % 100 / 10), DigitChar(a % 10)];
    assert u[..|u| - 3] == digits;
    assert u[|u| - 2..] == fraction;
    NatStringRoundTrip(a / 100);
    assert a % 100 % 10 == a % 10;
    TwoDigitsRoundTrip(a % 100);
  }

  /** The two fraction digits read back as the remainder they render. */
  lemma TwoDigitsRoundTrip(r: nat)
    requires r < 100
    ensures AllDigits([DigitChar(r / 10), DigitChar(r % 10)])
    ensures StringToNat([DigitChar(r / 10), DigitChar(r % 10)]) == r
  {
    var fraction := [DigitChar(r / 10), DigitChar(r % 10)];
    assert fraction[..1] == [DigitChar(r / 10)];
    assert fraction[..1][..0] == [];
    assert StringToNat(fraction[..1]) == r / 10;
  }

  /** What one loop iteration does with a lookup: add a line, or end the
      whole call with "No games found." or an error. */
  datatype Step = Line(text: string) | StopNotFound | StopError(error: string)

  function StepFor(lookup: Lookup): Step {
    match lookup
    case Failed(e) => StopError(e)
    case NoItems => StopNotFound
    case FirstItem(name, Falsy) => Line(name.GetOr(UnknownName) + ": " + FreeToPlay)
    case FirstItem(_, PriceObject(None)) => StopError(MissingFinalError)
    case FirstItem(name, PriceObject(Some(final))) => Line(name.GetOr(UnknownName) + ": R$" + FormatCents(final))
  }

  /** A priced item's line is its name (or "Unknown"), `": R$"`, and an
      amount that reads back as exactly the item's cents. */
  lemma PricedLineReadsBack(name: Option<string>, final: int)
    ensures var step := StepFor(FirstItem(name, PriceObject(Some(final))));
      var head := name.GetOr(UnknownName) + ": R$";
      && step.Line? && StartsWith(step.text, head)
      && ParseCents(step.text[|head|..]) == Some(final)
  {
    var head := name.GetOr(UnknownName) + ": R$";
    var text := head + FormatCents(final);
    assert text[..|head|] == head;
    assert text[|head|..] == FormatCents(final);
    CentsRoundTrip(final);
  }

  /** The answer when a step ends the call early. */
  function StopReply(step: Step): string {
    match step
    case StopNotFound => NoGamesFound
    case StopError(e) => ErrorPrefix + e
    case Line(_) => ""
  }

  /** The step each title leads to, looked up after stripping it. */
  function Steps(titles: seq<string>, fetch: Fetch): (steps: seq<Step>)
    ensures |steps| == |titles|
    ensures forall i :: 0 <= i < |titles| ==> steps[i] == StepFor(fetch(Strip(titles[i])))
  {
    seq(|titles|, i requires 0 <= i < |titles| => StepFor(fetch(Strip(titles[i]))))
  }

  /** Index of the first step that ends the call, or `|steps|`. */
  function FirstStop(steps: seq<Step>): (k: nat)
    ensures k <= |steps|
    ensures forall j :: 0 <= j < k ==> steps[j].Line?
    ensures k < |steps| ==> !steps[k].Line?
  {
    if |steps| == 0 then 0
    else if !steps[0].Line? then 0
    else 1 + FirstStop(steps[1..])
  }

  function LineText(step: Step): string {
    if step.Line? then step.text else ""
  }

  /** The line each step would contribute. */
  function PriceLines(steps: seq<Step>): (ls: seq<string>)
    ensures |ls| == |steps|
    ensures forall i :: 0 <= i < |steps| ==> ls[i] == LineText(steps[i])
  {
    seq(|steps|, i requires 0 <= i < |steps| => LineText(steps[i]))
  }

  /** The tool itself: one line per title in input order, joined by
      newlines; the first title without items turns the whole answer into
      "No games found.", and the first error into an error message, with
      the lines gathered so far discarded. */
  method GetSteamPrices(titles: seq<string>, fetch: Fetch) returns (reply: string)
    ensures |titles| == 0 ==> reply == ""
    ensures FirstStop(Steps(titles, fetch)) == |titles| ==> reply == Join("\n", PriceLines(Steps(titles, fetch)))
    ensures FirstStop(Steps(titles, fetch)) < |titles| ==> reply == StopReply(Steps(titles, fetch)[FirstStop(Steps(titles, fetch))])
  {
    ghost var steps := Steps(titles, fetch);
    var result: seq<string> := [];
    var i := 0;
    while i < |titles|
      invariant 0 <= i <= FirstStop(steps)
      invariant result == PriceLines(steps)[..i]
    {
      var gameName := Strip(titles[i]);
      var step := StepFor(fetch(gameName));
      assert step == steps[i];
      match step {
        case StopNotFound =>
          StopsAt(steps, i);
          return NoGamesFound;
        case StopError(e) =>
          StopsAt(steps, i);
          return ErrorPrefix + e;
        case Line(line) =>
          LineExtends(steps, i, line);
          result := result + [line];
      }
      i := i + 1;
    }
    assert result == PriceLines(steps);
    reply := Join("\n", result);
  }

  /** A step that is not a line is where the call stops. */
  lemma StopsAt(steps: seq<Step>, i: nat)
    requires i < |steps| && i <= FirstStop(steps)
    requires !steps[i].Line?
    ensures FirstStop(steps) == i
  {
  }

  /** A step that is a line extends the lines gathered before it. */
  lemma LineExtends(steps: seq<Step>, i: nat, line: string)
    requires i < |steps| && steps[i] == Line(line)
    ensures PriceLines(steps)[..i] + [line] == PriceLines(steps)[..i + 1]
  {
    var lines := PriceLines(steps);
    assert lines[i] == line;
    TakeOneMore(lines, i);
  }

  /** A prefix one longer is the prefix plus the next element. */
  lemma TakeOneMore<T>(s: seq<T>, i: nat)
    requires i < |s|
    ensures s[..i + 1] == s[..i] + [s[i]]
  {
  }

  /** When every title is found and no line contains a newline, the answer
      splits back into exactly one line per title, in order. */
  lemma AnswerSplitsIntoTitleLines(steps: seq<Step>)
    requires |steps| >= 1 && FirstStop(steps) == |steps|
    requires forall i, j :: 0 <= i < |steps| && 0 <= j < |LineText(steps[i])| ==> LineText(steps[i])[j] != '\n'
    ensures Split(Join("\n", PriceLines(steps)), '\n') == PriceLines(steps)
  {
    SplitJoin(PriceLines(steps), '\n');
  }
}

=== FILE: strings.dfy ===
/** The Python `str` operations the assistant relies on (`strip()`,
    `lower()`, `startswith`, `"sep".join(...)`), plus a one-character `split`
    used to read a joined answer back, and decimal digit rendering used for
    the whole-units part of a `:.2f` amount. */
module Strings {

  /** Python's `str.isspace()` on a single character: the ASCII whitespace
      and separator controls plus the Unicode space separators. */
  predicate IsSpace(c: char) {
    || c == ' '
    || ('\t' <= c <= '\r')
    || ('\U{1C}' <= c <= '\U{1F}')
    || c == '\U{85}' || c == '\U{A0}' || c == '\U{1680}'
    || ('\U{2000}' <= c <= '\U{200A}')
    || c == '\U{2028}' || c == '\U{2029}' || c == '\U{202F}'
    || c == '\U{205F}' || c == '\U{3000}'
  }

  predicate AllSpace(s: string) {
    forall i :: 0 <= i < |s| ==> IsSpace(s[i])
  }

  predicate StartsWith(s: string, prefix: string) {
    |prefix| <= |s| && s[..|prefix|] == prefix
  }

  /** `s.lstrip()`: drops leading whitespace. */
  function TrimStart(s: string): string {
    if |s| > 0 && IsSpace(s[0]) then TrimStart(s[1..]) else s
  }

  /** `s.rstrip()`: drops trailing whitespace. */
  function TrimEnd(s: string): string {
    if |s| > 0 && IsSpace(s[|s| - 1]) then TrimEnd(s[..|s| - 1]) else s
  }

  /** `s.strip()`: whitespace removed from both ends. */
  function Strip(s: string): (r: string)
    ensures |r| <= |s|
  {
    TrimStartSpec(s);
    TrimEndSpec(TrimStart(s));
    TrimEnd(TrimStart(s))
  }

  /** `lstrip` keeps a suffix, drops only whitespace, and stops at the first
      non-whitespace character. */
  lemma {:induction false} TrimStartSpec(s: string)
    ensures |TrimStart(s)| <= |s| && TrimStart(s) == s[|s| - |TrimStart(s)|..]
    ensures AllSpace(s[..|s| - |TrimStart(s)|])
    ensures TrimStart(s) == [] || !IsSpace(TrimStart(s)[0])
    decreases |s|
  {
    if |s| > 0 && IsSpace(s[0]) {
      TrimStartSpec(s[1..]);
      var k := |s| - |TrimStart(s)|;
      assert s[..k] == [s[0]] + s[1..][..k - 1];
    }
  }

  /** `rstrip` keeps a prefix, drops only whitespace, and stops at the last
      non-whitespace character. */
  lemma {:induction false} TrimEndSpec(s: string)
    ensures |TrimEnd(s)| <= |s| && TrimEnd(s) == s[..|TrimEnd(s)|]
    ensures AllSpace(s[|TrimEnd(s)|..])
    ensures TrimEnd(s) == [] || !IsSpace(TrimEnd(s)[|TrimEnd(s)| - 1])
    decreases |s|
  {
    if |s| > 0 && IsSpace(s[|s| - 1]) {
      var t := s[..|s| - 1];
      TrimEndSpec(t);
      var k := |TrimEnd(s)|;
      assert s[k..] == t[k..] + [s[|s| - 1]];
    }
  }

  /** `rstrip` never reaches into a prefix that ends in a non-whitespace
      character. */
  lemma {:induction false} TrimEndAfterPrefix(p: string, s: string)
    requires p == [] || !IsSpace(p[|p| - 1])
    ensures TrimEnd(p + s) == p + TrimEnd(s)
    decreases |s|
  {
    if |s| > 0 && IsSpace(s[|s| - 1]) {
      assert (p + s)[..|p + s| - 1] == p + s[..|s| - 1];
      TrimEndAfterPrefix(p, s[..|s| - 1]);
    } else if |s| == 0 {
      assert p + s == p;
    }
  }

  /** What `strip` leaves is the slice `s[i..i + |r|]`: whitespace on either
      side of it, and neither of its ends is whitespace. */
  lemma StripSpec(s: string)
    ensures Strip(s) == [] || (!IsSpace(Strip(s)[0]) && !IsSpace(Strip(s)[|Strip(s)| - 1]))
    ensures exists i :: 0 <= i <= |s| - |Strip(s)| && Strip(s) == s[i..i + |Strip(s)|] && AllSpace(s[..i]) && AllSpace(s[i + |Strip(s)|..])
  {
    var t := TrimStart(s);
    var r := TrimEnd(t);
    TrimStartSpec(s);
    TrimEndSpec(t);
    var i := |s| - |t|;
    assert r == s[i..i + |r|];
    assert s[i + |r|..] == t[|r|..];
    if r != [] {
      assert r[0] == t[0];
    }
  }

  /** Stripping twice is stripping once. */
  lemma StripIdempotent(s: string)
    ensures Strip(Strip(s)) == Strip(s)
  {
    StripSpec(s);
    var r := Strip(s);
    if r != [] {
      assert TrimStart(r) == r;
      assert TrimEnd(r) == r;
    }
  }

  /** A string strips to nothing exactly when it is all whitespace. */
  lemma StripEmptyIffAllSpace(s: string)
    ensures Strip(s) == [] <==> AllSpace(s)
  {
    if AllSpace(s) {
      AllSpaceTrimStart(s);
    } else {
      StripSpec(s);
    }
  }

  lemma {:induction false} AllSpaceTrimStart(s: string)
    requires AllSpace(s)
    ensures TrimStart(s) == []
    decreases |s|
  {
    if |s| > 0 {
      assert AllSpace(s[1..]) by {
        forall i | 0 <= i < |s| - 1 ensures IsSpace(s[1..][i]) {
          assert s[1..][i] == s[i + 1];
        }
      }
      AllSpaceTrimStart(s[1..]);
    }
  }

  /** Python's `str.lower()` restricted to ASCII letters. */
  function LowerChar(c: char): char {
    if 'A' <= c <= 'Z' then (c as int + 32) as char else c
  }

  function Lower(s: string): (r: string)
    ensures |r| == |s|
    ensures forall i :: 0 <= i < |s| ==> r[i] == LowerChar(s[i])
  {
    if |s| == 0 then [] else [LowerChar(s[0])] + Lower(s[1..])
  }

  /** Lower-casing is idempotent, so a lower-cased word is its own lower case. */
  lemma LowerIdempotent(s: string)
    ensures Lower(Lower(s)) == Lower(s)
  {
    var l := Lower(s);
    assert forall i :: 0 <= i < |l| ==> LowerChar(l[i]) == l[i];
  }

  /** `sep.join(parts)`. */
  function Join(sep: string, parts: seq<string>): string {
    if |parts| == 0 then ""
    else if |parts| == 1 then parts[0]
    else parts[0] + sep + Join(sep, parts[1..])
  }

  /** Number of characters before the first `c` in `s`, or `|s|` if none. */
  function IndexOfChar(s: string, c: char): (k: nat)
    ensures k <= |s|
    ensures forall j :: 0 <= j < k ==> s[j] != c
    ensures k < |s| ==> s[k] == c
  {
    if |s| == 0 || s[0] == c then 0 else 1 + IndexOfChar(s[1..], c)
  }

  /** `s.split(c)` for a one-character separator. */
  function Split(s: string, c: char): (parts: seq<string>)
    ensures |parts| >= 1
    decreases |s|
  {
    var k := IndexOfChar(s, c);
    if k == |s| then [s] else [s[..k]] + Split(s[k + 1..], c)
  }

  /** `split` undoes `join` when no part contains the separator. */
  lemma {:induction false} SplitJoin(parts: seq<string>, c: char)
    requires |parts| >= 1
    requires forall i, j :: 0 <= i < |parts| && 0 <= j < |parts[i]| ==> parts[i][j] != c
    ensures Split(Join([c], parts), c) == parts
  {
    var s := Join([c], parts);
    if |parts| == 1 {
      assert IndexOfChar(s, c) == |s|;
    } else {
      var rest := Join([c], parts[1..]);
      assert s == parts[0] + [c] + rest;
      var p := parts[0];
      assert forall j :: 0 <= j < |p| ==> s[j] != c;
      var k := IndexOfChar(s, c);
      assert s[|p|] == c;
      assert k == |p|;
      assert s[..k] == p;
      assert s[k + 1..] == rest;
      SplitJoin(parts[1..], c);
    }
  }

  predicate IsDigit(c: char) {
    '0' <= c <= '9'
  }

  predicate AllDigits(s: string) {
    forall i :: 0 <= i < |s| ==> IsDigit(s[i])
  }

  function DigitChar(d: nat): (c: char)
    requires d < 10
    ensures IsDigit(c)
  {
    (d + '0' as int) as char
  }

  function DigitValue(c: char): (d: nat)
    requires IsDigit(c)
    ensures d < 10 && DigitChar(d) == c
  {
    c as int - '0' as int
  }

  /** `str(n)` for a non-negative integer: base-ten digits without leading zeros. */
  function NatToString(n: nat): (r: string)
    ensures |r| >= 1 && AllDigits(r)
    ensures r[0] == '0' ==> n == 0
  {
    if n < 10 then [DigitChar(n)] else NatToString(n / 10) + [DigitChar(n % 10)]
  }

  /** `int(s)` for a non-empty string of ASCII digits. */
  function StringToNat(s: string): nat
    requires AllDigits(s)
  {
    if |s| == 0 then 0 else StringToNat(s[..|s| - 1]) * 10 + DigitValue(s[|s| - 1])
  }

  /** Parsing the decimal rendering of `n` gives back `n`. */
  lemma {:induction false} NatStringRoundTrip(n: nat)
    ensures StringToNat(NatToString(n)) == n
  {
    var s := NatToString(n);
    if n >= 10 {
      assert s[..|s| - 1] == NatToString(n / 10);
      NatStringRoundTrip(n / 10);
    }
  }
}

=== FILE: tool_manager.dfy ===
/** The tool registry of `app/tool_manager.py`.

    Python's dynamic import and reflection are replaced by abstract values: a
    tools directory is either missing or a list of source files; importing a
    file either raises, finds no loader, or yields the module's members as
    `(name, member)` pairs in the order `inspect.getmembers` lists them. The
    registry itself is Python's insertion-ordered `dict` from member name to
    tool, represented as a sequence of entries. */
module ToolManager {
  import opened Wrappers
  import opened Strings

  /** A LangChain `Tool`/`StructuredTool`: its own name, its description and
      the identity of the callable it wraps. */
  datatype Tool = Tool(name: string, description: string, func: nat)

  /** A module member that is not a Tool instance, described by the
      attributes the loader inspects. `dunderName` is `__name__` (None when
      the attribute is absent); `marked` is "has a truthy `_is_tool`". */
  datatype PyObject = PyObject(
    isCallable: bool,
    dunderName: Option<string>,
    doc: Option<string>,
    marked: bool,
    ident: nat)

  /** A module member: a ready Tool, any other object, or one whose
      inspection or wrapping raises. */
  datatype Member = ToolInstance(tool: Tool) | Plain(obj: PyObject) | Raising

  /** What importing one source file gives: an exception, no loader
      (`spec_from_file_location` found nothing to load), or the members. */
  datatype ModuleLoad = ImportRaises | NoLoader | Imported(members: seq<(string, Member)>)

  datatype SourceFile = SourceFile(fileName: string, load: ModuleLoad)

  datatype ToolsDir = Missing | Present(files: seq<SourceFile>)

  datatype Entry = Entry(key: string, tool: Tool)

  /** The `self.tools` dict: entries in insertion order. */
  type Registry = seq<Entry>

  const ReservedPrefix: string := "__"

  function Keys(r: Registry): (ks: seq<string>)
    ensures |ks| == |r|
    ensures forall i :: 0 <= i < |r| ==> ks[i] == r[i].key
  {
    seq(|r|, i requires 0 <= i < |r| => r[i].key)
  }

  function Values(r: Registry): (vs: seq<Tool>)
    ensures |vs| == |r|
    ensures forall i :: 0 <= i < |r| ==> vs[i] == r[i].tool
  {
    seq(|r|, i requires 0 <= i < |r| => r[i].tool)
  }

  /** A dict never holds the same key twice. */
  predicate Distinct(r: Registry) {
    forall i, j :: 0 <= i < j < |r| ==> r[i].key != r[j].key
  }

  /** Position of `key` in the registry, if present. */
  function IndexOf(r: Registry, key: string): (i: Option<nat>)
    ensures i.Some? ==> i.value < |r| && r[i.value].key == key
    ensures i.Some? ==> forall j :: 0 <= j < i.value ==> r[j].key != key
    ensures i.None? <==> key !in Keys(r)
  {
    if |r| == 0 then None
    else if r[0].key == key then Some(0)
    else match IndexOf(r[1..], key)
      case None => None
      case Some(j) => Some(j + 1)
  }

  /** `self.tools.get(name)`: the tool stored under `name`, or None. */
  function GetTool(r: Registry, name: string): (t: Option<Tool>)
    ensures t.None? <==> name !in Keys(r)
    ensures t.Some? ==> exists i :: 0 <= i < |r| && r[i] == Entry(name, t.value)
  {
    match IndexOf(r, name)
    case None => None
    case Some(i) => Some(r[i].tool)
  }

  /** `self.tools[name] = tool`: an existing key keeps its position and gets
      the new tool; a new key goes to the end. */
  function RegisterTool(r: Registry, name: string, t: Tool): (r': Registry)
    ensures Keys(r') == if name in Keys(r) then Keys(r) else Keys(r) + [name]
    ensures GetTool(r', name) == Some(t)
    ensures forall k :: k != name ==> GetTool(r', k) == GetTool(r, k)
    ensures Distinct(r) ==> Distinct(r')
  {
    match IndexOf(r, name)
    case None =>
      AppendNewKey(r, Entry(name, t));
      r + [Entry(name, t)]
    case Some(i) =>
      OverwriteKey(r, i, Entry(name, t));
      r[i := Entry(name, t)]
  }

  /** Adding an entry under a new key appends the key and changes no other lookup. */
  lemma AppendNewKey(r: Registry, e: Entry)
    requires e.key !in Keys(r)
    ensures Keys(r + [e]) == Keys(r) + [e.key]
    ensures GetTool(r + [e], e.key) == Some(e.tool)
    ensures forall k :: k != e.key ==> GetTool(r + [e], k) == GetTool(r, k)
    ensures Distinct(r) ==> Distinct(r + [e])
  {
    var r' := r + [e];
    assert Keys(r') == Keys(r) + [e.key];
    forall k | k != e.key ensures GetTool(r', k) == GetTool(r, k) {
      IndexOfAppend(r, e, k);
    }
    IndexOfAppend(r, e, e.key);
  }

  /** Overwriting the entry of an existing key keeps the key order and
      changes no other lookup. */
  lemma OverwriteKey(r: Registry, i: nat, e: Entry)
    requires i < |r| && r[i].key == e.key
    requires forall j :: 0 <= j < i ==> r[j].key != e.key
    ensures Keys(r[i := e]) == Keys(r)
    ensures GetTool(r[i := e], e.key) == Some(e.tool)
    ensures forall k :: k != e.key ==> GetTool(r[i := e], k) == GetTool(r, k)
    ensures Distinct(r) ==> Distinct(r[i := e])
  {
    var r' := r[i := e];
    assert Keys(r') == Keys(r);
    forall k | k != e.key ensures GetTool(r', k) == GetTool(r, k) {
      IndexOfUpdate(r, i, e, k);
    }
    IndexOfUpdate(r, i, e, e.key);
  }

  lemma {:induction false} IndexOfAppend(r: Registry, e: Entry, k: string)
    ensures IndexOf(r + [e], k) == if k in Keys(r) then IndexOf(r, k) else if k == e.key then Some(|r|) else None
  {
    if |r| > 0 {
      assert (r + [e])[1..] == r[1..] + [e];
      IndexOfAppend(r[1..], e, k);
      if r[0].key != k {
        assert k in Keys(r) <==> k in Keys(r[1..]);
      }
    } else {
      assert Keys(r) == [];
    }
  }

  lemma {:induction false} IndexOfUpdate(r: Registry, i: nat, e: Entry, k: string)
    requires i < |r| && r[i].key == e.key
    ensures IndexOf(r[i := e], k) == IndexOf(r, k)
  {
    if i > 0 {
      UpdateTail(r, i, e);
      IndexOfUpdate(r[1..], i - 1, e, k);
    }
  }

  /** Updating past the head commutes with dropping the head. */
  lemma UpdateTail<T>(s: seq<T>, i: nat, x: T)
    requires 0 < i < |s|
    ensures s[i := x][0] == s[0]
    ensures s[i := x][1..] == s[1..][i - 1 := x]
  {
  }

  /** `_is_tool_function`: callable, with a `__name__` not starting with an
      underscore, and carrying a truthy `_is_tool` marker. */
  predicate IsToolFunction(o: PyObject) {
    && o.isCallable
    && o.dunderName.Some?
    && !StartsWith(o.dunderName.value, "_")
    && o.marked
  }

  /** `_create_tool_from_function`: a Tool named after the member, described
      by its stripped docstring, or by `"Tool: <name>"` when the docstring is
      missing or empty, and wrapping the function itself. */
  function WrapFunction(name: string, o: PyObject): (t: Tool)
    ensures t.name == name && t.func == o.ident
    ensures Strip(t.description) == t.description
    ensures o.doc.Some? && o.doc.value != "" ==> t.description == Strip(o.doc.value)
    ensures o.doc.None? || o.doc.value == "" ==> t.description == "Tool:" + TrimEnd(" " + name)
    ensures (o.doc.None? || o.doc.value == "") && name != [] && Strip(name) == name ==> t.description == "Tool: " + name
  {
    var description := if o.doc.Some? && o.doc.value != "" then o.doc.value else "Tool: " + name;
    StripIdempotent(description);
    DefaultDescriptionShape(name);
    DefaultDescriptionStripped(name);
    Tool(name, Strip(description), o.ident)
  }

  /** For any name, stripping `"Tool: " + name` keeps `"Tool:"` and drops
      only the name's trailing whitespace: `""` and `"x "` give `"Tool:"` and
      `"Tool: x"`. */
  lemma DefaultDescriptionShape(name: string)
    ensures Strip("Tool: " + name) == "Tool:" + TrimEnd(" " + name)
  {
    var d := "Tool: " + name;
    assert TrimStart(d) == d;
    assert d == "Tool:" + (" " + name);
    TrimEndAfterPrefix("Tool:", " " + name);
  }

  lemma DefaultDescriptionStripped(name: string)
    ensures name != [] && Strip(name) == name ==> Strip("Tool: " + name) == "Tool: " + name
  {
    var d := "Tool: " + name;
    if name != [] && Strip(name) == name {
      StripSpec(name);
      assert !IsSpace(d[0]);
      assert TrimStart(d) == d;
      assert d[|d| - 1] == name[|name| - 1];
      assert TrimEnd(d) == d;
    }
  }

  /** The `tool` decorator: the same function, now carrying `_is_tool = True`. */
  function MarkAsTool(f: PyObject): (g: PyObject)
    ensures g.marked
    ensures g.ident == f.ident && g.isCallable == f.isCallable && g.dunderName == f.dunderName && g.doc == f.doc
  {
    f.(marked := true)
  }

  /** The member loop of `_load_tool_from_file`: ready Tools are registered
      unchanged, marked functions are wrapped first, anything else is
      skipped; a member that raises ends the loop, keeping what came before. */
  function ScanMembers(r: Registry, ms: seq<(string, Member)>): (r': Registry)
    ensures Distinct(r) ==> Distinct(r')
    decreases |ms|
  {
    if |ms| == 0 then r
    else
      var (name, m) := ms[0];
      match m
      case Raising => r
      case ToolInstance(t) => ScanMembers(RegisterTool(r, name, t), ms[1..])
      case Plain(o) =>
        if IsToolFunction(o) then ScanMembers(RegisterTool(r, name, WrapFunction(name, o)), ms[1..])
        else ScanMembers(r, ms[1..])
  }

  /** `_load_tool_from_file`, with the exception it may raise already caught
      by the caller: an import failure or a missing loader changes nothing. */
  function LoadFile(r: Registry, f: SourceFile): Registry {
    match f.load
    case ImportRaises => r
    case NoLoader => r
    case Imported(ms) => ScanMembers(r, ms)
  }

  /** One iteration of the loop in `load_tools`: reserved files are skipped. */
  function LoadStep(r: Registry, f: SourceFile): Registry {
    if StartsWith(f.fileName, ReservedPrefix) then r else LoadFile(r, f)
  }

  function LoadFiles(r: Registry, fs: seq<SourceFile>): (r': Registry)
    ensures Distinct(r) ==> Distinct(r')
    decreases |fs|
  {
    if |fs| == 0 then r else LoadFiles(LoadStep(r, fs[0]), fs[1..])
  }

  /** `load_tools`: a missing directory leaves the registry as it was. */
  function LoadTools(r: Registry, dir: ToolsDir): (r': Registry)
    ensures dir.Missing? ==> r' == r
    ensures Distinct(r) ==> Distinct(r')
  {
    match dir
    case Missing => r
    case Present(fs) => LoadFiles(r, fs)
  }

  /** `ToolManager.__init__`: an empty registry, then one load. */
  function NewRegistry(dir: ToolsDir): (r: Registry)
    ensures Distinct(r)
  {
    LoadTools([], dir)
  }

  /** `reload_tools`: clear, then load. */
  function ReloadTools(r: Registry, dir: ToolsDir): (r': Registry)
    ensures Distinct(r')
  {
    LoadTools([], dir)
  }

  /** `list_tools` */
  function ListTools(r: Registry): seq<string> {
    Keys(r)
  }

  /** `get_tools` */
  function GetTools(r: Registry): seq<Tool> {
    Values(r)
  }

  // ---------------------------------------------------------------------
  // Properties
  // ---------------------------------------------------------------------

  /** What a single file would register into an empty registry. */
  function Produced(f: SourceFile): Registry {
    LoadStep([], f)
  }

  /** The tool a sequence of files defines for `name`: the last file
      producing it wins. */
  function LatestDefinition(fs: seq<SourceFile>, name: string): Option<Tool> {
    if |fs| == 0 then None
    else OrElse(LatestDefinition(fs[1..], name), GetTool(Produced(fs[0]), name))
  }

  /** Scanning over an existing registry overrides it name by name with what
      the scan alone would register. */
  lemma {:induction false} ScanMembersLookup(r: Registry, ms: seq<(string, Member)>, name: string)
    ensures GetTool(ScanMembers(r, ms), name) == OrElse(GetTool(ScanMembers([], ms), name), GetTool(r, name))
    decreases |ms|
  {
    if |ms| > 0 {
      var (k, m) := ms[0];
      match m
      case Raising =>
      case ToolInstance(t) =>
        ScanMembersLookup(RegisterTool(r, k, t), ms[1..], name);
        ScanMembersLookup(RegisterTool([], k, t), ms[1..], name);
      case Plain(o) =>
        if IsToolFunction(o) {
          var t := WrapFunction(k, o);
          ScanMembersLookup(RegisterTool(r, k, t), ms[1..], name);
          ScanMembersLookup(RegisterTool([], k, t), ms[1..], name);
        } else {
          ScanMembersLookup(r, ms[1..], name);
        }
    }
  }

  lemma LoadStepLookup(r: Registry, f: SourceFile, name: string)
    ensures GetTool(LoadStep(r, f), name) == OrElse(GetTool(Produced(f), name), GetTool(r, name))
  {
    if !StartsWith(f.fileName, ReservedPrefix) && f.load.Imported? {
      ScanMembersLookup(r, f.load.members, name);
    }
  }

  /** Last registration wins across files: after loading, a name maps to the
      tool of the last file defining it, or to what was there before. */
  lemma {:induction false} LoadFilesLookup(r: Registry, fs: seq<SourceFile>, name: string)
    ensures GetTool(LoadFiles(r, fs), name) == OrElse(LatestDefinition(fs, name), GetTool(r, name))
    decreases |fs|
  {
    if |fs| > 0 {
      LoadStepLookup(r, fs[0], name);
      LoadFilesLookup(LoadStep(r, fs[0]), fs[1..], name);
    }
  }

  /** Loading is a fold: loading `a + b` is loading `a`, then `b`. */
  lemma {:induction false} LoadFilesAppend(r: Registry, a: seq<SourceFile>, b: seq<SourceFile>)
    ensures LoadFiles(r, a + b) == LoadFiles(LoadFiles(r, a), b)
    decreases |a|
  {
    if |a| > 0 {
      assert (a + b)[1..] == a[1..] + b;
      LoadFilesAppend(LoadStep(r, a[0]), a[1..], b);
    } else {
      assert a + b == b;
    }
  }

  /** A file whose name starts with `"__"` contributes nothing, wherever it
      sits in the directory listing. */
  lemma ReservedFileIgnored(r: Registry, before: seq<SourceFile>, f: SourceFile, after: seq<SourceFile>)
    requires StartsWith(f.fileName, ReservedPrefix)
    ensures LoadFiles(r, before + [f] + after) == LoadFiles(r, before + after)
  {
    LoadFilesAppend(r, before + [f], after);
    LoadFilesAppend(r, before, [f]);
    LoadFilesAppend(r, before, after);
  }

  /** Fault isolation: a file that fails to import is as if it were absent;
      the files after it still load. */
  lemma ImportFailureIsolated(r: Registry, before: seq<SourceFile>, f: SourceFile, after: seq<SourceFile>)
    requires f.load.ImportRaises?
    ensures LoadFiles(r, before + [f] + after) == LoadFiles(r, before + after)
  {
    LoadFilesAppend(r, before + [f], after);
    LoadFilesAppend(r, before, [f]);
    LoadFilesAppend(r, before, after);
  }

  /** A member that raises ends its file's scan, but everything registered
      from that file before it stays registered. */
  lemma {:induction false} RaisingMemberKeepsEarlier(r: Registry, ms: seq<(string, Member)>, k: nat)
    requires k < |ms| && ms[k].1.Raising?
    ensures ScanMembers(r, ms) == ScanMembers(r, ms[..k])
    decreases k
  {
    if k > 0 {
      assert ms[..k][0] == ms[0];
      assert ms[..k][1..] == ms[1..][..k - 1];
      var (name, m) := ms[0];
      match m
      case Raising =>
      case ToolInstance(t) =>
        RaisingMemberKeepsEarlier(RegisterTool(r, name, t), ms[1..], k - 1);
      case Plain(o) =>
        if IsToolFunction(o) {
          RaisingMemberKeepsEarlier(RegisterTool(r, name, WrapFunction(name, o)), ms[1..], k - 1);
        } else {
          RaisingMemberKeepsEarlier(r, ms[1..], k - 1);
        }
    }
  }

  /** A ready Tool is registered unchanged under the member's name, whatever
      the Tool's own `name` says. */
  lemma ToolInstanceKeyedByMemberName(r: Registry, fileName: string, memberName: string, t: Tool)
    requires !StartsWith(fileName, ReservedPrefix)
    ensures GetTool(LoadStep(r, SourceFile(fileName, Imported([(memberName, ToolInstance(t))]))), memberName) == Some(t)
  {
    var ms := [(memberName, ToolInstance(t))];
    assert ScanMembers(r, ms) == ScanMembers(RegisterTool(r, memberName, t), ms[1..]);
  }

  /** A plain object is registered exactly when it is a marked tool function,
      and then as its wrapped form. */
  lemma PlainMemberRegisteredIffToolFunction(r: Registry, memberName: string, o: PyObject)
    ensures GetTool(ScanMembers(r, [(memberName, Plain(o))]), memberName)
         == if IsToolFunction(o) then Some(WrapFunction(memberName, o)) else GetTool(r, memberName)
  {
  }

  /** The decorator makes a callable with a public `__name__` a tool function. */
  lemma MarkedFunctionIsToolFunction(f: PyObject)
    ensures IsToolFunction(MarkAsTool(f)) <==> f.isCallable && f.dunderName.Some? && !StartsWith(f.dunderName.value, "_")
  {
  }

  /** After a reload the registry holds exactly what the directory now
      defines: earlier names no longer defined are gone. */
  lemma ReloadReflectsDirectory(r: Registry, fs: seq<SourceFile>, name: string)
    ensures GetTool(ReloadTools(r, Present(fs)), name) == LatestDefinition(fs, name)
    ensures name in ListTools(ReloadTools(r, Present(fs))) <==> LatestDefinition(fs, name).Some?
  {
    LoadFilesLookup([], fs, name);
  }

  /** A reload forgets everything registered before: its result depends on
      the directory alone, and equals a fresh manager's registry. */
  lemma ReloadIsFreshLoad(r1: Registry, r2: Registry, dir: ToolsDir)
    ensures ReloadTools(r1, dir) == ReloadTools(r2, dir) == NewRegistry(dir)
  {
  }

  /** `list_tools()` and `get_tools()` run in step: same length, and the i-th
      name looks up the i-th tool. */
  lemma ListAndGetToolsAligned(r: Registry)
    requires Distinct(r)
    ensures |ListTools(r)| == |GetTools(r)|
    ensures forall i :: 0 <= i < |r| ==> GetTool(r, ListTools(r)[i]) == Some(GetTools(r)[i])
  {
    forall i | 0 <= i < |r|
      ensures GetTool(r, ListTools(r)[i]) == Some(GetTools(r)[i])
    {
      var k := r[i].key;
      var j := IndexOf(r, k).value;
      assert j == i;
    }
  }
}

=== FILE: wrappers.dfy ===
/** Optional values, standing in for Python's `None`-or-value results. */
module Wrappers {

  datatype Option<+T> = None | Some(value: T) {

    /** The value if present, otherwise `default` (Python's `d.get(key, default)`, which keeps a present value even when it is falsy). */
    function GetOr(default: T): T {
      match this
      case Some(v) => v
      case None => default
    }
  }

  /** Left-biased choice: the first option if it holds a value, otherwise the second. */
  function OrElse<T>(first: Option<T>, second: Option<T>): Option<T> {
    if first.Some? then first else second
  }
}
